=== FILE: README.md ===
# Discord MCP API — model of the `/mcp` dispatcher

This project models the request dispatcher of the Discord MCP API server
(`handle_mcp` in `main.py`). The dispatcher takes one JSON body and produces
exactly one reply. It branches on the top-level `method` (`invoke`,
`initialize`, anything else). Under `invoke` it branches on the tool name
(`send_message`, `get_messages`, `get_channels`, anything else). It reads the
arguments with Python `.get` defaults and makes at most one call to the
Discord client. It then passes the client's error through or projects the
payload down to a fixed shape. It answers with a JSON-RPC 2.0 object, with a
bare `{success: false, error}` object, or with HTTP 500 when a Python
exception escapes. The model also covers the list projections of the REST
handlers `/get-messages` and `/get-channels`, and states where they differ
from the `/mcp` ones.

Layout, one module per file:

- `values.dfy` (`Values`): the decoded JSON value and the dict lookup (`d.get`).
- `pyops.dfy` (`PyOps`): the Python operations the handlers use (`.get`, `in`,
  `[]`, `for`), with their exceptions written out as `PyResult`/`Fault`.
- `pytext.dfy` (`PyText`): `str()` of a JSON value, for the f-string error messages.
- `discord.dfy` (`Discord`): the client as an oracle. `Call` is one upstream
  call and `Upstream` is its answer (`Ok(payload)` or `Err(message)`).
- `simplify.dfy` (`Simplify`): the message and channel projections of both
  surfaces, plus the list handling they share.
- `catalog.dfy` (`Catalog`): the fixed `initialize` answer.
- `mcp.dfy` (`Mcp`): the dispatcher. `Route` runs up to the upstream call,
  `Complete` shapes the reply from the answer, and `Dispatch` does both.
- `mcp_properties.dfy` (`McpProperties`): the dispatcher's promises as lemmas.
- `rest.dfy` (`Rest`): the two REST list handlers.

Behaviour of `main.py` that the model keeps as written:

- `send_message` forwards `channel_id` and `content` exactly as the request gives them, null when absent.
- The only JSON-RPC error codes the dispatcher sends are -32601 and -32603.
- An upstream error inside `invoke` is answered with `{success: false, error}`,
  without `jsonrpc` and without `id`, and with HTTP status 200.
- The 500 reply always carries id `"unknown"`, even when the request's id had already been read.
- The two list calls of the client log `len()` of the decoded body inside their `try`. So a body that is
  None, a bool or an int comes back as an error dict, and the dispatcher answers it with a bare error.

## Model

| member | source | states |
|---|---|---|
| `Values.Lookup` | main.py:142-144 | a lookup finds nothing exactly when no member has the key; otherwise it returns the value of the last member with that key, as `json.loads` keeps the last duplicate |
| `Values.LookupDistinct` | main.py:174-180 | in an object whose member names do not repeat, `.get` of a member's name returns that member's value |
| `Values.Field` | main.py:142-144 | `d.get(key, default)` is the default when no member has the key, and otherwise the value of the last member with that key |
| `Values.DistinctKeys` | main.py:172 | iterating a dict visits exactly its keys, each once, in the order of their first occurrence |
| `Values.DistinctKeysOfDistinct` | main.py:172 | when no name repeats, iterating the dict visits the member names as written |
| `PyOps.Dict` | main.py:142-144 | `x.get(...)` succeeds exactly on a dict; on any other value it raises AttributeError naming that value's Python type |
| `PyOps.Contains` | main.py:155 | `"error" in x` tests a dict's keys, a list's elements and a str's substrings, and raises TypeError on None, bool and int |
| `PyOps.Subscript` | main.py:156 | `x["error"]` yields a value exactly when `x` is a dict holding that key, and then yields the key's value |
| `PyOps.Iterate` | main.py:172 | `for e in x` visits a list's elements in order. On a dict it visits every key once as a str. On a str it visits each character as a one-character str. On None, bool and int it raises the "is not iterable" TypeError |
| `PyText.DecimalRoundTrip` | main.py:214 | the decimal digits that `str()` prints for a number read back to that number |
| `PyText.NatToDecimal` | main.py:214 | `str()` of a natural number is a nonempty string of decimal digits with no leading zero |
| `PyText.IntToDecimal` | main.py:214 | `str()` of an int is its decimal digits, after a minus sign when negative. The digits are never empty, have no leading zero and read back to the number |
| `PyText.Repr` | main.py:214 | `repr()` inside a list or dict shows None, True and False by name. An int shows as its decimal digits with no leading zero, after a minus sign when negative. A str appears between single quotes. A list is bracketed and a dict braced |
| `PyText.Show` | main.py:214 | in an f-string a str is rendered as itself and None as "None" (also main.py:287) |
| `Discord.Returned` | discord_api.py:32-39 | the client returns the one-member dict `{"error": message}` on failure. On success send_message returns the decoded body. The two list calls return it when it has a length, and otherwise the `{"error": ...}` dict of the TypeError from `len()` (also discord_api.py:54-61 and discord_api.py:75-82) |
| `Discord.ListCallsReturnIterable` | discord_api.py:54-61 | a list call always returns a str, a list or a dict, and a dict holding "error" whenever the call failed or the body had no length (also discord_api.py:75-82) |
| `Simplify.MapAll` | main.py:171-181 | the simplification loop succeeds exactly when every element projects. On success the output has the input's length and order. Otherwise it raises the first failing element's exception |
| `Simplify.MapAllIdempotent` | main.py:171-181 | mapping a projection over a list that projection produced gives the same list back, provided the projection fixes its own outputs |
| `Simplify.SimplifyPayload` | main.py:167-181 | a dict with an "error" key yields that value as the failure. A list yields its projections in order, and succeeds exactly when every element projects. A str succeeds exactly when each of its one-character strs projects, and a dict without "error" exactly when each key, as a str, projects. None, bool and int cannot be iterated |
| `Simplify.McpMessage` | main.py:173-181 | a message projects exactly when it is an object whose `author` is absent or an object. The result has exactly id, content, author {username, bot} and timestamp, copied from the message with null for a missing member and false for a missing `bot` |
| `Simplify.RestMessage` | main.py:89-99 | the same acceptance as the `/mcp` projection, with the author's members id, username, bot |
| `Simplify.RestMessageAddsAuthorId` | main.py:93-96 | the REST and `/mcp` message projections fail together with the same exception. On success they differ only by the author's `id` in front |
| `Simplify.McpChannel` | main.py:198-202 | a channel projects exactly when it is an object. The result has exactly id, name and type, each copied from the channel or null |
| `Simplify.RestChannel` | main.py:119-125 | the same acceptance, with exactly id, name, type and parent_id |
| `Simplify.RestChannelAddsParentId` | main.py:124 | the REST channel is the `/mcp` channel with `parent_id` appended |
| `Simplify.McpMessageFixedPoints` | main.py:173-181 | the `/mcp` message projection leaves a value unchanged exactly when the value already has the `/mcp` message shape |
| `Simplify.RestMessageFixedPoints` | main.py:90-99 | the REST message projection leaves a value unchanged exactly when the value already has the REST message shape |
| `Simplify.McpChannelFixedPoints` | main.py:198-202 | the `/mcp` channel projection leaves a value unchanged exactly when the value already has the `/mcp` channel shape |
| `Simplify.RestChannelFixedPoints` | main.py:120-125 | the REST channel projection leaves a value unchanged exactly when the value already has the REST channel shape |
| `Simplify.McpMessagesIdempotent` | main.py:171-181 | simplifying an already simplified message list gives it back unchanged |
| `Simplify.McpChannelsIdempotent` | main.py:196-202 | simplifying an already simplified channel list gives it back unchanged |
| `Simplify.RestMessagesIdempotent` | main.py:88-99 | the same for the REST message list |
| `Simplify.RestChannelsIdempotent` | main.py:118-125 | the same for the REST channel list |
| `Catalog.ToolJson` | main.py:221-236 | a tool entry has the tool's description and a parameter schema of type "object". The schema lists each parameter in order with its type and description, and the required names as strings |
| `Catalog.ToolsJson` | main.py:220-268 | the tools object has one member per catalog entry, named after the tool, in catalog order |
| `Catalog.CatalogIsFixed` | main.py:219-269 | the catalog lists exactly send_message, get_messages and get_channels. Their required lists are [channel_id, content], [channel_id] and [guild_id]. Every required name is a declared parameter |
| `Catalog.InitializeResult` | main.py:271-281 | the `initialize` result holds serverInfo, with name "Discord MCP API" and version "1.0.0", then capabilities, holding only tools |
| `Catalog.InitializeResultShape` | main.py:271-281 | the `initialize` result is serverInfo {name "Discord MCP API", version "1.0.0"} followed by capabilities {tools} |
| `Mcp.InternalReply` | main.py:290-298 | an exception is answered with status 500 and a JSON-RPC error with id "unknown" and code -32603 |
| `Mcp.Begin` | main.py:141-147 | routing a decoded body succeeds only on an object. A settled reply has status 200 and is a result or a -32601 error under the request's id. A due call carries the request's id |
| `Mcp.Invoke` | main.py:147-215 | the `invoke` branch either raises an AttributeError from `.get`, or settles a 200 reply with -32601 under the given id, or names a call to make under that id |
| `Mcp.Route` | main.py:139-298 | a reply settled before any upstream call has status 200 or 500, and 500 exactly for the internal-error object. A 200 reply and a due call both come from an object body and carry its id |
| `Mcp.SendOutcome` | main.py:154-161 | on a dict with an "error" key, the reply is the bare error with the value `json.loads` kept for that key, the last one. A dict without it yields the fixed acknowledgment. A list holding "error", or a str containing "error", raises on `result["error"]`; any other list or str is acknowledged. None, bool and int raise on `in` |
| `Mcp.ListOutcome` | main.py:166-187 | after a list call, a produced reply is the bare error exactly when the result is a dict with an "error" key. On a list it raises exactly when some element does not project; otherwise the reply is the JSON-RPC result under the given id with `success: true` and the projected elements under the member name |
| `Mcp.Complete` | main.py:154-208 | after the upstream call, a 200 reply is a JSON-RPC result under the given id or a bare error. Status 500 holds exactly for the internal-error object |
| `Mcp.Dispatch` | main.py:132-298 | every reply has status 200 or 500, and 500 exactly for the internal-error object with id "unknown". A 200 reply comes from an object body and is either a JSON-RPC object echoing the request id or a bare error |
| `McpProperties.UnknownMethodIsNotFound` | main.py:283-288 | a method other than invoke or initialize, absent included, gets -32601 under the request's id ("unknown" when absent), the message naming the method. No call is made |
| `McpProperties.InitializeIsConstant` | main.py:217-281 | `initialize` returns the fixed catalog under the request's id, whatever `params` holds, and makes no call |
| `McpProperties.UnknownToolIsNotFound` | main.py:148-149 | a tool name outside the catalog, absent included, gets -32601 under the request's id, the message naming the tool. No call is made (the branch is at main.py:210-215) |
| `McpProperties.InvokeToolsAreTheCatalog` | main.py:151-189 | the tool names `invoke` dispatches on are, in order, the names `initialize` advertises |
| `McpProperties.SendMessageForwardsArguments` | main.py:151-154 | `send_message` calls the client with `channel_id` and `content` exactly as given, null when absent. There is no fallback channel |
| `McpProperties.SendMessageAcknowledges` | main.py:155-161 | on an upstream object without an "error" member, the reply is the fixed acknowledgment under the request id, whatever the payload |
| `McpProperties.GetMessagesForwardsArguments` | main.py:163-166 | `get_messages` calls the client with `channel_id` (null when absent) and `limit` (10 when absent) |
| `McpProperties.GetMessagesSimplifies` | main.py:170-187 | on an upstream list, the reply lists the projections of its elements in the same order, each in the `/mcp` message shape |
| `McpProperties.GetMessagesRejectsMalformedEntry` | main.py:172-181 | one element that is not an object, or whose author is not an object, makes the whole reply the 500 reply |
| `McpProperties.GetChannelsForwardsArguments` | main.py:189-191 | `get_channels` calls the client with `guild_id`, null when absent |
| `McpProperties.GetChannelsSimplifies` | main.py:195-208 | on an upstream list, the reply lists the projections of its channels in the same order, each with exactly id, name and type |
| `McpProperties.GetChannelsRejectsMalformedEntry` | main.py:197-202 | one channel that is not an object makes the whole reply the 500 reply |
| `McpProperties.ListToolsOnOddPayloads` | main.py:166-181 | for the list tools, a None, bool or int body is answered with status 200 and the bare error carrying the client's `len()` TypeError text. An empty dict is answered with a success holding an empty list. A non-empty str, or a non-empty dict without "error", iterates to strs, which have no `get`: the 500 reply |
| `McpProperties.UpstreamErrorIsBare` | main.py:155-156 | an upstream `Err(s)` in any tool branch gets status 200 and `{success: false, error: s}` with `s` verbatim, with no `jsonrpc` and no `id` (also main.py:167-168 and main.py:192-193) |
| `McpProperties.InvokeUpstreamErrorIsBare` | main.py:147-168 | an `invoke` of a catalog tool with object arguments always reaches the client. When the client then errs, the whole reply is the bare error with the client's message |
| `McpProperties.ErrorMemberReadsAsUpstreamError` | main.py:192-193 | an upstream success payload `{"error": s}` is answered exactly as the upstream error `Err(s)` |
| `McpProperties.UndecodableBodyIsInternal` | main.py:141 | a body that does not decode gets the 500 reply |
| `McpProperties.NonObjectBodyIsInternal` | main.py:142 | a body that is not an object gets the 500 reply, for the AttributeError on `.get` |
| `McpProperties.InvokeWithoutObjectParamsIsInternal` | main.py:143-148 | `invoke` with a `params` that is present but not an object gets the 500 reply with id "unknown", even when the request has an id |
| `McpProperties.KnownToolWithoutObjectArgumentsIsInternal` | main.py:149-153 | a known tool whose `arguments` is present but not an object gets the 500 reply before any upstream call |
| `McpProperties.DispatchConsultsOnlyRoutedCall` | main.py:154-166 | a reply settled by routing does not depend on the client. A routed reply depends only on the answer to the one call routing named |
| `Rest.MessagesCall` | main.py:83 | `/get-messages` asks the client for the request's channel as a str, with the request's limit as an int, or None when the request set it to null. A missing limit has already become 10 in the request model (main.py:38) |
| `Rest.GetMessages` | main.py:74-103 | `/get-messages` never fails with an exception: it answers a bare error or `{success: true, data: {messages: [...]}}` |
| `Rest.GetChannels` | main.py:105-129 | `/get-channels` answers a bare error or `{success: true, data: {channels: [...]}}` |
| `Rest.ListAnswer` | main.py:82-103 | a REST list answer is a bare error or `{success: true, data: {member: [...]}}`. An exception becomes a bare error whose `error` is a string |
| `Rest.GetMessagesSimplifies` | main.py:83-101 | on an upstream list, `/get-messages` answers its REST projections in the same order under `data.messages` |
| `Rest.GetChannelsSimplifies` | main.py:113-127 | on an upstream list, `/get-channels` answers its REST projections in the same order under `data.channels` |
| `Rest.GetMessagesUpstreamErrorIsBare` | main.py:84-85 | an upstream error of `/get-messages` comes back verbatim as `{success: false, error}` |
| `Rest.GetChannelsUpstreamErrorIsBare` | main.py:114-115 | an upstream error of `/get-channels` comes back verbatim as `{success: false, error}` |
| `Rest.MalformedMessageIsBareError` | main.py:102-103 | for a message list holding an unprojectable message, both surfaces hit the same exception `e`: `/get-messages` answers `{success: false, error: str(e)}`, and the `/mcp` tool answers the 500 reply for `e` |
| `Rest.MessageFailuresAgree` | main.py:88-99 | when the REST message list raises, the `/mcp` list over the same messages raises the same exception (also main.py:171-181) |
| `Rest.MessageListsAgree` | main.py:88-99 | the REST and `/mcp` message lists succeed or fail together on the same client result. Item by item, the REST author has the `id` in front |
| `Rest.ChannelListsAgree` | main.py:118-125 | the REST and `/mcp` channel lists succeed or fail together. Item by item, the REST channel has `parent_id` appended |

## Left out

- Floating-point JSON numbers: the model has integers only.
- The Discord HTTP calls in discord_api.py are not modelled: they are `requests` calls plus stderr logging. The model keeps what the handlers can observe. Every exception inside the client's `try` becomes `{"error": str(e)}`. That includes `raise_for_status`, a body that is not JSON, and the `len()` the list calls log. Nothing is raised. The HTTP exchange itself is the `Upstream` parameter.
- Loading the token from the environment and constructing the client (main.py:14-20): configuration plumbing.
- The FastAPI wiring is not modelled: app construction, route decorators, OpenAPI metadata, the root info route and the Pydantic request models (main.py:23-56). The REST handlers take already-validated requests, whose `limit` the request model has already set to 10 when it was left out.
- The REST `/send-message` handler (main.py:58-72): its answer goes through FastAPI's response-model validation, which is framework behaviour.
- Decoding the request body (main.py:141): the body is taken as decoded JSON, or as an undecodable text that leads to the 500 reply.
- Uvicorn startup (main.py:300-305): process I/O.
- Message texts: the Portuguese strings are kept as written. `PyText.Repr` does not reproduce Python's quote choice or escapes. `PyOps.FaultText` uses CPython 3.11's wording, which other versions change.
- Python dict semantics beyond what the handlers use: the model does not deduplicate keys when it renders a dict for an error message.

=== FILE: catalog.dfy ===
/**
 The fixed answer to the `/mcp` `initialize` method: the server's name and
 version and the schema of the three tools `invoke` accepts.
 */
module Catalog {
  import opened Values

  /** One parameter of a tool: name, JSON-schema type, description. */
  datatype Param = Param(name: string, kind: string, description: string)

  /** A catalog entry: the tool's description, its parameters and the names
      of the ones a caller must supply. */
  datatype ToolSpec = ToolSpec(name: string, description: string, params: seq<Param>, required: seq<string>)

  const Tools: seq<ToolSpec> := [
    ToolSpec("send_message", "Envia uma mensagem para um canal do Discord",
             [Param("channel_id", "string", "ID do canal do Discord"),
              Param("content", "string", "Conteúdo da mensagem")],
             ["channel_id", "content"]),
    ToolSpec("get_messages", "Obtém mensagens recentes de um canal do Discord",
             [Param("channel_id", "string", "ID do canal do Discord"),
              Param("limit", "integer", "Número máximo de mensagens (padrão: 10)")],
             ["channel_id"]),
    ToolSpec("get_channels", "Obtém os canais de um servidor do Discord",
             [Param("guild_id", "string", "ID do servidor do Discord")],
             ["guild_id"])
  ]

  const ServerName := "Discord MCP API"
  const ServerVersion := "1.0.0"

  function ParamJson(p: Param): Json {
    Object([("type", String(p.kind)), ("description", String(p.description))])
  }

  /** A tool entry as it appears under `capabilities.tools`. */
  function ToolJson(t: ToolSpec): (r: Json)
    ensures r.Object? && Keys(r.fields) == ["description", "parameters"]
    ensures r.fields[0].1 == String(t.description)
    ensures r.fields[1].1.Object? && Keys(r.fields[1].1.fields) == ["type", "properties", "required"]
    ensures r.fields[1].1.fields[0].1 == String("object")
    ensures r.fields[1].1.fields[1].1.Object?
    ensures Keys(r.fields[1].1.fields[1].1.fields) == seq(|t.params|, i requires 0 <= i < |t.params| => t.params[i].name)
    ensures forall i :: 0 <= i < |t.params| ==>
      r.fields[1].1.fields[1].1.fields[i].1 == Object([("type", String(t.params[i].kind)), ("description", String(t.params[i].description))])
    ensures r.fields[1].1.fields[2].1 == Array(seq(|t.required|, i requires 0 <= i < |t.required| => String(t.required[i])))
  {
    Object([("description", String(t.description)),
            ("parameters", Object([("type", String("object")),
                                   ("properties", Object(seq(|t.params|, i requires 0 <= i < |t.params| =>
                                                               (t.params[i].name, ParamJson(t.params[i]))))),
                                   ("required", Array(seq(|t.required|, i requires 0 <= i < |t.required| =>
                                                            String(t.required[i]))))]))])
  }

  /** The `capabilities.tools` object: one member per catalog entry, in order. */
  function ToolsJson(ts: seq<ToolSpec>): (r: Json)
    ensures r.Object? && |r.fields| == |ts|
    ensures forall i :: 0 <= i < |ts| ==> r.fields[i] == (ts[i].name, ToolJson(ts[i]))
  {
    Object(seq(|ts|, i requires 0 <= i < |ts| => (ts[i].name, ToolJson(ts[i]))))
  }

  /** The `result` member of the reply to `initialize`. */
  function InitializeResult(): (r: Json)
    ensures r.Object? && Keys(r.fields) == ["serverInfo", "capabilities"]
    ensures r.fields[0].1.Object? && Lookup(r.fields[0].1.fields, "name") == Some(String(ServerName))
    ensures Lookup(r.fields[0].1.fields, "version") == Some(String(ServerVersion))
    ensures r.fields[1].1.Object? && Keys(r.fields[1].1.fields) == ["tools"]
  {
    Object([("serverInfo", Object([("name", String(ServerName)), ("version", String(ServerVersion))])),
            ("capabilities", Object([("tools", ToolsJson(Tools))]))])
  }

  /** The names of the catalog entries, in order. */
  function ToolNames(ts: seq<ToolSpec>): seq<string> {
    seq(|ts|, i requires 0 <= i < |ts| => ts[i].name)
  }

  /** The catalog lists exactly the three tools `invoke` dispatches on, with
      their required arguments, and every required argument is a declared
      parameter of its tool. */
  lemma CatalogIsFixed()
    ensures ToolNames(Tools) == ["send_message", "get_messages", "get_channels"]
    ensures Tools[0].required == ["channel_id", "content"]
    ensures Tools[1].required == ["channel_id"]
    ensures Tools[2].required == ["guild_id"]
    ensures forall t, n :: t in Tools && n in t.required ==> exists p :: p in t.params && p.name == n
  {
    assert Tools[0].params[0].name == "channel_id" && Tools[0].params[1].name == "content";
    assert Tools[1].params[0].name == "channel_id";
    assert Tools[2].params[0].name == "guild_id";
    forall t, n | t in Tools && n in t.required
      ensures exists p :: p in t.params && p.name == n
    {
      if t == Tools[0] {
        if n == "channel_id" { assert t.params[0] in t.params; } else { assert t.params[1] in t.params; }
      } else if t == Tools[1] {
        assert t.params[0] in t.params;
      } else {
        assert t.params[0] in t.params;
      }
    }
  }

  /** The reply to `initialize` names the server and carries one entry per
      catalog tool, in catalog order. */
  lemma InitializeResultShape()
    ensures Keys(InitializeResult().fields) == ["serverInfo", "capabilities"]
    ensures InitializeResult().fields[0].1 == Object([("name", String("Discord MCP API")), ("version", String("1.0.0"))])
    ensures InitializeResult().fields[1].1 == Object([("tools", ToolsJson(Tools))])
    ensures Keys(ToolsJson(Tools).fields) == ["send_message", "get_messages", "get_channels"]
  {
    CatalogIsFixed();
    var tj := ToolsJson(Tools);
    assert forall i :: 0 <= i < 3 ==> Keys(tj.fields)[i] == ToolNames(Tools)[i];
  }
}

=== FILE: discord.dfy ===
/**
 The upstream Discord client, seen from the handlers: three calls whose
 answer is either the decoded response body or an error message. The client
 never raises; every failure comes back as the dict `{"error": message}`.
 */
module Discord {
  import opened Values
  import opened PyOps

  /** One upstream call with the argument values the handler passed. */
  datatype Call =
    | SendMessage(channelId: Json, content: Json)
    | GetChannelMessages(channelId: Json, limit: Json)
    | GetGuildChannels(guildId: Json)

  /** The answer of the HTTP exchange behind one call: the decoded body of a
      successful response, or the text of the exception that ended it. */
  datatype Upstream = Ok(payload: Json) | Err(message: string)

  /** True for the two calls that log the length of the decoded body inside
      their `try`, which raises TypeError on a body without a length. */
  predicate MeasuresBody(call: Call) {
    call.GetChannelMessages? || call.GetGuildChannels?
  }

  /** True for the values `len()` accepts: str, list and dict. */
  predicate HasLen(j: Json) {
    j.String? || j.Array? || j.Object?
  }

  /** The Python value the client method returns for an answer: the decoded
      body on success, `{"error": message}` on failure, where a list call's
      `len()` of a body without a length is one more failure. */
  function Returned(call: Call, u: Upstream): (j: Json)
    ensures u.Ok? && (!MeasuresBody(call) || HasLen(u.payload)) ==> j == u.payload
    ensures u.Ok? && MeasuresBody(call) && !HasLen(u.payload) ==>
      j == Object([("error", String(FaultText(NoLen(TypeName(u.payload)))))])
    ensures u.Err? ==> j.Object? && Keys(j.fields) == ["error"] && Lookup(j.fields, "error") == Some(String(u.message))
  {
    match u
    case Ok(payload) =>
      if MeasuresBody(call) && !HasLen(payload) then Object([("error", String(FaultText(NoLen(TypeName(payload)))))])
      else payload
    case Err(message) => Object([("error", String(message))])
  }

  /** What a list call returns can always be iterated: a str, a list or a
      dict, the last holding "error" when the call failed. */
  lemma ListCallsReturnIterable(call: Call, u: Upstream)
    requires MeasuresBody(call)
    ensures HasLen(Returned(call, u))
    ensures u.Err? || !HasLen(u.payload) ==> Returned(call, u).Object? && HasKey(Returned(call, u).fields, "error")
  {
    if u.Err? || !HasLen(u.payload) {
      assert Returned(call, u).fields[0].0 == "error";
    }
  }
}

=== FILE: mcp.dfy ===
/**
 The `/mcp` dispatcher (`handle_mcp` in main.py): one decoded JSON body in,
 one reply out. The Discord client is an oracle `upstream: Call -> Upstream`;
 the dispatcher first routes the body, which either settles the reply
 (`Done`) or names the one upstream call to make (`Await`), and then shapes
 the reply from that call's answer.

 Every Python exception raised along the way becomes the HTTP 500 reply
 whose JSON-RPC id is "unknown", whatever id the request carried.
 */
module Mcp {
  import opened Values
  import opened PyOps
  import opened PyText
  import opened Discord
  import opened Simplify
  import Catalog

  /** The request body: decoded JSON, or text `request.json()` cannot decode. */
  datatype Body = Decoded(json: Json) | Undecodable(detail: string)

  /** An HTTP status with a JSON body. */
  datatype Reply = Reply(status: int, body: Json)

  /** After routing: either the reply is settled, or one upstream call is due,
      to be answered under the request id `id`. */
  datatype Stage = Done(reply: Reply) | Await(call: Call, id: Json)

  /** JSON-RPC 2.0 error codes (section 5.1 of the JSON-RPC 2.0 Specification). */
  const MethodNotFound := -32601
  const InternalError := -32603

  const UnknownId := String("unknown")
  const SentText := "Mensagem enviada com sucesso"
  const UnknownMethodText := "Método MCP não encontrado: "
  const UnknownToolText := "Método não encontrado: "
  const InternalText := "Erro interno: "

  /** The tool names `invoke` dispatches on. */
  const InvokeTools: seq<Json> := [String("send_message"), String("get_messages"), String("get_channels")]

  function RpcResult(id: Json, result: Json): Json {
    Object([("jsonrpc", String("2.0")), ("id", id), ("result", result)])
  }

  function RpcError(id: Json, code: int, message: string): Json {
    Object([("jsonrpc", String("2.0")), ("id", id),
            ("error", Object([("code", Int(code)), ("message", String(message))]))])
  }

  /** The acknowledgment `send_message` returns on success. */
  const SentAck: Json := Object([("success", Bool(true)), ("message", String(SentText))])

  function InternalReply(f: Fault): (r: Reply)
    ensures r.status == 500 && IsRpcError(r.body, UnknownId, InternalError)
  {
    Reply(500, RpcError(UnknownId, InternalError, InternalText + FaultText(f)))
  }

  /** `body.get("id", "unknown")` */
  function RequestId(fields: seq<(string, Json)>): Json {
    Field(fields, "id", UnknownId)
  }

  /** True when `j` is a JSON-RPC error object with id `id` and code `code`. */
  predicate IsRpcError(j: Json, id: Json, code: int) {
    && j.Object? && |j.fields| == 3
    && j.fields[0] == ("jsonrpc", String("2.0"))
    && j.fields[1] == ("id", id)
    && j.fields[2].0 == "error"
    && j.fields[2].1.Object? && |j.fields[2].1.fields| == 2
    && j.fields[2].1.fields[0] == ("code", Int(code))
    && j.fields[2].1.fields[1].0 == "message"
    && j.fields[2].1.fields[1].1.String?
  }

  /** True when `j` is a JSON-RPC success object with id `id`. */
  predicate IsRpcResult(j: Json, id: Json) {
    && j.Object? && |j.fields| == 3
    && j.fields[0] == ("jsonrpc", String("2.0"))
    && j.fields[1] == ("id", id)
    && j.fields[2].0 == "result"
  }

  /** True when `j` is a JSON-RPC object, result or error, with id `id`. */
  predicate CarriesId(j: Json, id: Json) {
    j.Object? && |j.fields| == 3 && j.fields[0] == ("jsonrpc", String("2.0")) && j.fields[1] == ("id", id)
  }

  // ----------------------------------------------------------------- routing

  /** The steps of `handle_mcp` before the upstream call, on a decoded body. */
  function Begin(body: Json): (r: PyResult<Stage>)
    ensures r.Value? ==> body.Object?
    ensures r.Value? && r.value.Done? ==>
      && r.value.reply.status == 200
      && (IsRpcResult(r.value.reply.body, RequestId(body.fields)) ||
          IsRpcError(r.value.reply.body, RequestId(body.fields), MethodNotFound))
    ensures r.Value? && r.value.Await? ==> r.value.id == RequestId(body.fields)
  {
    var fields :- Dict(body);
    var rpcMethod := Field(fields, "method", Null);
    var params := Field(fields, "params", Object([]));
    var id := RequestId(fields);
    if rpcMethod == String("invoke") then Invoke(params, id)
    else if rpcMethod == String("initialize") then
      Value(Done(Reply(200, RpcResult(id, Catalog.InitializeResult()))))
    else
      Value(Done(Reply(200, RpcError(id, MethodNotFound, UnknownMethodText + Show(rpcMethod)))))
  }

  /** The `invoke` branch: pick the tool, read its arguments with their defaults. */
  function Invoke(params: Json, id: Json): (r: PyResult<Stage>)
    ensures r.Raise? ==> r.fault.NoAttribute? && r.fault.attr == "get"
    ensures r.Value? && r.value.Done? ==> r.value.reply.status == 200 && IsRpcError(r.value.reply.body, id, MethodNotFound)
    ensures r.Value? && r.value.Await? ==> r.value.id == id
  {
    var p :- Dict(params);
    var tool := Field(p, "method", Null);
    var arguments := Field(p, "arguments", Object([]));
    if tool == String("send_message") then
      var args :- Dict(arguments);
      Value(Await(SendMessage(Field(args, "channel_id", Null), Field(args, "content", Null)), id))
    else if tool == String("get_messages") then
      var args :- Dict(arguments);
      Value(Await(GetChannelMessages(Field(args, "channel_id", Null), Field(args, "limit", Int(10))), id))
    else if tool == String("get_channels") then
      var args :- Dict(arguments);
      Value(Await(GetGuildChannels(Field(args, "guild_id", Null)), id))
    else
      Value(Done(Reply(200, RpcError(id, MethodNotFound, UnknownToolText + Show(tool)))))
  }

  function Route(body: Body): (r: Stage)
    ensures r.Done? ==> r.reply.status == 200 || r.reply.status == 500
    ensures r.Done? ==> (r.reply.status == 500 <==> IsRpcError(r.reply.body, UnknownId, InternalError))
    ensures r.Done? && r.reply.status == 200 ==>
      body.Decoded? && body.json.Object? && CarriesId(r.reply.body, RequestId(body.json.fields))
    ensures r.Await? ==> body.Decoded? && body.json.Object? && r.id == RequestId(body.json.fields)
  {
    match body
    case Undecodable(detail) => Done(InternalReply(BadJson(detail)))
    case Decoded(j) =>
      match Begin(j)
      case Value(stage) => stage
      case Raise(f) => Done(InternalReply(f))
  }

  // ---------------------------------------------------------- reply shaping

  /** `send_message` after the call: `"error" in result` decides, with
      Python's meaning of `in` for each type of result. */
  function SendOutcome(result: Json, id: Json): (r: PyResult<Json>)
    ensures result.Object? && HasKey(result.fields, "error") ==>
      r == Value(BareError(Lookup(result.fields, "error").value))
    ensures result.Object? && !HasKey(result.fields, "error") ==> r == Value(RpcResult(id, SentAck))
    ensures result.Array? ==>
      r == (if String("error") in result.items then Raise(StrIndex("list")) else Value(RpcResult(id, SentAck)))
    ensures result.String? ==>
      r == (if IsSubstring("error", result.s) then Raise(StrIndex("str")) else Value(RpcResult(id, SentAck)))
    ensures result.Null? || result.Bool? || result.Int? ==> r == Raise(NotContainer(TypeName(result)))
  {
    var failed :- Contains(result, "error");
    if failed then
      var e :- Subscript(result, "error");
      Value(BareError(e))
    else Value(RpcResult(id, SentAck))
  }

  /** `get_messages` and `get_channels` after the call. */
  function ListOutcome(result: Json, id: Json, project: Json -> PyResult<Json>, member: string): (r: PyResult<Json>)
    ensures r.Value? ==> IsBareError(r.value) || IsRpcResult(r.value, id)
    ensures r.Value? && IsBareError(r.value) <==> result.Object? && HasKey(result.fields, "error")
    ensures result.Array? ==>
      (r.Raise? <==> exists i :: 0 <= i < |result.items| && project(result.items[i]).Raise?)
    ensures result.Array? && r.Value? ==>
      r.value == RpcResult(id, Object([("success", Bool(true)), (member, Array(MapAll(project, result.items).value))]))
  {
    var listing :- SimplifyPayload(result, project);
    match listing
    case UpstreamFailed(e) => Value(BareError(e))
    case Listed(items) => Value(RpcResult(id, Object([("success", Bool(true)), (member, Array(items))])))
  }

  /** The reply once the upstream call `call` has answered `answer`. */
  function Complete(call: Call, id: Json, answer: Upstream): (r: Reply)
    ensures r.status == 200 ==> IsRpcResult(r.body, id) || IsBareError(r.body)
    ensures r.status == 500 <==> IsRpcError(r.body, UnknownId, InternalError)
    ensures r.status == 200 || r.status == 500
  {
    var result := Returned(call, answer);
    var outcome :=
      match call
      case SendMessage(_, _) => SendOutcome(result, id)
      case GetChannelMessages(_, _) => ListOutcome(result, id, McpMessage, "messages")
      case GetGuildChannels(_) => ListOutcome(result, id, McpChannel, "channels");
    match outcome
    case Value(j) => Reply(200, j)
    case Raise(f) => InternalReply(f)
  }

  /** `handle_mcp`: one body in, one reply out. The status is 500 exactly when
      the reply is the internal-error object, whose id is always "unknown". */
  function Dispatch(body: Body, upstream: Call -> Upstream): (r: Reply)
    ensures r.status == 200 || r.status == 500
    ensures r.status == 500 <==> IsRpcError(r.body, UnknownId, InternalError)
    ensures r.status == 200 ==>
      && body.Decoded? && body.json.Object?
      && (CarriesId(r.body, RequestId(body.json.fields)) || IsBareError(r.body))
  {
    match Route(body)
    case Done(reply) => reply
    case Await(call, id) => Complete(call, id, upstream(call))
  }
}

=== FILE: mcp_properties.dfy ===
/**
 What `handle_mcp` promises, stated over the dispatcher model: the routing of
 every top-level method and tool name, the argument defaults, the shape of
 every success and failure reply, and where exceptions turn into HTTP 500.
 */
module McpProperties {
  import opened Values
  import opened PyOps
  import opened PyText
  import opened Discord
  import opened Simplify
  import opened Mcp
  import Catalog

  // -------------------------------------------------------- top-level method

  /** A method other than "invoke" or "initialize", absent included, is
      answered with -32601 under the request's id, and nothing is called. */
  lemma UnknownMethodIsNotFound(fields: seq<(string, Json)>, upstream: Call -> Upstream)
    requires Field(fields, "method", Null) != String("invoke")
    requires Field(fields, "method", Null) != String("initialize")
    ensures Route(Decoded(Object(fields))) ==
      Done(Reply(200, RpcError(RequestId(fields), MethodNotFound,
                               UnknownMethodText + Show(Field(fields, "method", Null)))))
    ensures Dispatch(Decoded(Object(fields)), upstream) == Route(Decoded(Object(fields))).reply
    ensures !HasKey(fields, "id") ==> IsRpcError(Dispatch(Decoded(Object(fields)), upstream).body, UnknownId, MethodNotFound)
  {
  }

  /** `initialize` answers the fixed catalog under the request's id, whatever
      `params` holds, and calls nothing. */
  lemma InitializeIsConstant(fields: seq<(string, Json)>, upstream: Call -> Upstream)
    requires Field(fields, "method", Null) == String("initialize")
    ensures Route(Decoded(Object(fields))) == Done(Reply(200, RpcResult(RequestId(fields), Catalog.InitializeResult())))
    ensures Dispatch(Decoded(Object(fields)), upstream) == Reply(200, RpcResult(RequestId(fields), Catalog.InitializeResult()))
  {
  }

  // ------------------------------------------------------------------ invoke

  /** The conditions under which `invoke` reaches its tool branches: the
      method is "invoke" and `params` (absent meaning `{}`) is an object. */
  predicate InvokesWith(fields: seq<(string, Json)>, p: seq<(string, Json)>) {
    Field(fields, "method", Null) == String("invoke") && Field(fields, "params", Object([])) == Object(p)
  }

  /** A tool name outside the catalog, absent included, is answered with
      -32601 under the request's id, and nothing is called. */
  lemma UnknownToolIsNotFound(fields: seq<(string, Json)>, p: seq<(string, Json)>, upstream: Call -> Upstream)
    requires InvokesWith(fields, p)
    requires Field(p, "method", Null) !in InvokeTools
    ensures Route(Decoded(Object(fields))) ==
      Done(Reply(200, RpcError(RequestId(fields), MethodNotFound,
                               UnknownToolText + Show(Field(p, "method", Null)))))
    ensures Dispatch(Decoded(Object(fields)), upstream) == Route(Decoded(Object(fields))).reply
  {
  }

  /** `invoke` dispatches on exactly the tool names `initialize` advertises. */
  lemma InvokeToolsAreTheCatalog()
    ensures |InvokeTools| == |Catalog.Tools|
    ensures forall i :: 0 <= i < |InvokeTools| ==> InvokeTools[i] == String(Catalog.Tools[i].name)
  {
    Catalog.CatalogIsFixed();
    assert Catalog.ToolNames(Catalog.Tools)[0] == Catalog.Tools[0].name;
    assert Catalog.ToolNames(Catalog.Tools)[1] == Catalog.Tools[1].name;
    assert Catalog.ToolNames(Catalog.Tools)[2] == Catalog.Tools[2].name;
  }

  /** `send_message` passes `channel_id` and `content` to the client as
      given, null when absent: there is no fallback channel. */
  lemma SendMessageForwardsArguments(fields: seq<(string, Json)>, p: seq<(string, Json)>, a: seq<(string, Json)>)
    requires InvokesWith(fields, p)
    requires Field(p, "method", Null) == String("send_message")
    requires Field(p, "arguments", Object([])) == Object(a)
    ensures Route(Decoded(Object(fields))) ==
      Await(SendMessage(Field(a, "channel_id", Null), Field(a, "content", Null)), RequestId(fields))
    ensures !HasKey(a, "channel_id") ==> Route(Decoded(Object(fields))).call.channelId == Null
  {
  }

  /** On an upstream message object, `send_message` answers the fixed
      acknowledgment; nothing of the upstream payload is echoed. */
  lemma SendMessageAcknowledges(channel: Json, content: Json, id: Json, payload: Json)
    requires payload.Object? && !HasKey(payload.fields, "error")
    ensures Complete(SendMessage(channel, content), id, Ok(payload)) == Reply(200, RpcResult(id, SentAck))
  {
  }

  /** `get_messages` passes `channel_id` (null when absent) and `limit`
      (10 when absent) to the client. */
  lemma GetMessagesForwardsArguments(fields: seq<(string, Json)>, p: seq<(string, Json)>, a: seq<(string, Json)>)
    requires InvokesWith(fields, p)
    requires Field(p, "method", Null) == String("get_messages")
    requires Field(p, "arguments", Object([])) == Object(a)
    ensures Route(Decoded(Object(fields))) ==
      Await(GetChannelMessages(Field(a, "channel_id", Null), Field(a, "limit", Int(10))), RequestId(fields))
    ensures !HasKey(a, "limit") ==> Route(Decoded(Object(fields))).call.limit == Int(10)
  {
  }

  /** On an upstream list of messages the reply lists their projections in
      the same order, each with exactly id, content, author {username, bot}
      and timestamp. */
  lemma GetMessagesSimplifies(channel: Json, limit: Json, id: Json, xs: seq<Json>, ms: seq<Json>)
    requires |ms| == |xs|
    requires forall i :: 0 <= i < |xs| ==> McpMessage(xs[i]) == Value(ms[i])
    ensures Complete(GetChannelMessages(channel, limit), id, Ok(Array(xs))) ==
      Reply(200, RpcResult(id, Object([("success", Bool(true)), ("messages", Array(ms))])))
    ensures forall i :: 0 <= i < |ms| ==> IsMcpMessage(ms[i])
  {
    var r := MapAll(McpMessage, xs);
    assert r.Value?;
    assert r.value == ms;
  }

  /** One upstream message that is not an object, or whose author is not an
      object, turns the whole `get_messages` reply into the 500 reply. */
  lemma GetMessagesRejectsMalformedEntry(channel: Json, limit: Json, id: Json, xs: seq<Json>, i: int)
    requires 0 <= i < |xs| && !IsProjectable(xs[i])
    ensures Complete(GetChannelMessages(channel, limit), id, Ok(Array(xs))).status == 500
  {
    assert McpMessage(xs[i]).Raise?;
  }

  /** `get_channels` passes `guild_id` (null when absent) to the client. */
  lemma GetChannelsForwardsArguments(fields: seq<(string, Json)>, p: seq<(string, Json)>, a: seq<(string, Json)>)
    requires InvokesWith(fields, p)
    requires Field(p, "method", Null) == String("get_channels")
    requires Field(p, "arguments", Object([])) == Object(a)
    ensures Route(Decoded(Object(fields))) == Await(GetGuildChannels(Field(a, "guild_id", Null)), RequestId(fields))
  {
  }

  /** On an upstream list of channels the reply lists their projections in
      the same order, each with exactly id, name and type. */
  lemma GetChannelsSimplifies(guild: Json, id: Json, xs: seq<Json>, cs: seq<Json>)
    requires |cs| == |xs|
    requires forall i :: 0 <= i < |xs| ==> McpChannel(xs[i]) == Value(cs[i])
    ensures Complete(GetGuildChannels(guild), id, Ok(Array(xs))) ==
      Reply(200, RpcResult(id, Object([("success", Bool(true)), ("channels", Array(cs))])))
    ensures forall i :: 0 <= i < |cs| ==> IsMcpChannel(cs[i])
  {
    var r := MapAll(McpChannel, xs);
    assert r.Value?;
    assert r.value == cs;
  }

  /** One upstream channel that is not an object turns the whole
      `get_channels` reply into the 500 reply. */
  lemma GetChannelsRejectsMalformedEntry(guild: Json, id: Json, xs: seq<Json>, i: int)
    requires 0 <= i < |xs| && !xs[i].Object?
    ensures Complete(GetGuildChannels(guild), id, Ok(Array(xs))).status == 500
  {
    assert McpChannel(xs[i]).Raise?;
  }

  /** A list tool whose upstream body is None, bool or int fails in the
      client's `len()`, so the reply is the bare error carrying the client's
      TypeError text; an empty dict iterates to an empty list. */
  lemma ListToolsOnOddPayloads(call: Call, id: Json, payload: Json)
    requires call.GetChannelMessages? || call.GetGuildChannels?
    ensures payload.Null? || payload.Bool? || payload.Int? ==>
      Complete(call, id, Ok(payload)) ==
        Reply(200, BareError(String("object of type '" + TypeName(payload) + "' has no len()")))
    ensures call.GetChannelMessages? ==>
      Complete(call, id, Ok(Object([]))) ==
        Reply(200, RpcResult(id, Object([("success", Bool(true)), ("messages", Array([]))])))
    ensures call.GetGuildChannels? ==>
      Complete(call, id, Ok(Object([]))) ==
        Reply(200, RpcResult(id, Object([("success", Bool(true)), ("channels", Array([]))])))
    ensures (payload.String? && |payload.s| > 0) ||
            (payload.Object? && |payload.fields| > 0 && !HasKey(payload.fields, "error")) ==>
      Complete(call, id, Ok(payload)) == InternalReply(NoAttribute("str", "get"))
  {
    if payload.Null? || payload.Bool? || payload.Int? {
      ListToolsOnBodiesWithoutLen(call, id, payload);
    }
    ListToolsOnEmptyDict(call, id);
    if (payload.String? && |payload.s| > 0) ||
       (payload.Object? && |payload.fields| > 0 && !HasKey(payload.fields, "error")) {
      ListToolsOnStrElements(call, id, payload);
    }
  }

  /** A body without a length fails in the client's `len()`. */
  lemma ListToolsOnBodiesWithoutLen(call: Call, id: Json, payload: Json)
    requires call.GetChannelMessages? || call.GetGuildChannels?
    requires payload.Null? || payload.Bool? || payload.Int?
    ensures Complete(call, id, Ok(payload)) ==
      Reply(200, BareError(String("object of type '" + TypeName(payload) + "' has no len()")))
  {
    var text := "object of type '" + TypeName(payload) + "' has no len()";
    var result := Returned(call, Ok(payload));
    assert result == Object([("error", String(text))]);
    assert Lookup(result.fields, "error") == Some(String(text));
    var member := if call.GetChannelMessages? then "messages" else "channels";
    var project := if call.GetChannelMessages? then McpMessage else McpChannel;
    assert ListOutcome(result, id, project, member) == Value(BareError(String(text)));
  }

  /** An empty dict iterates to nothing: a success with an empty list. */
  lemma ListToolsOnEmptyDict(call: Call, id: Json)
    requires call.GetChannelMessages? || call.GetGuildChannels?
    ensures call.GetChannelMessages? ==>
      Complete(call, id, Ok(Object([]))) ==
        Reply(200, RpcResult(id, Object([("success", Bool(true)), ("messages", Array([]))])))
    ensures call.GetGuildChannels? ==>
      Complete(call, id, Ok(Object([]))) ==
        Reply(200, RpcResult(id, Object([("success", Bool(true)), ("channels", Array([]))])))
  {
    assert Returned(call, Ok(Object([]))) == Object([]);
    assert DistinctKeys([]) == [];
    assert |Iterate(Object([])).value| == 0;
  }

  /** A non-empty str, or a non-empty dict without "error", reaches the
      loop unchanged and iterates to at least one element, every one a str. */
  lemma StrElementsRaise(call: Call, payload: Json)
    requires call.GetChannelMessages? || call.GetGuildChannels?
    requires (payload.String? && |payload.s| > 0) ||
             (payload.Object? && |payload.fields| > 0 && !HasKey(payload.fields, "error"))
    ensures Iterate(payload).Value? && |Iterate(payload).value| > 0
    ensures forall e :: e in Iterate(payload).value ==> e.String?
    ensures Returned(call, Ok(payload)) == payload
  {
    var items := Iterate(payload).value;
    if payload.Object? {
      assert HasKey(payload.fields, payload.fields[0].0);
      assert String(payload.fields[0].0) in items;
    } else {
      assert items[0] == String([payload.s[0]]);
      forall e | e in items ensures e.String? {
        var i :| 0 <= i < |items| && items[i] == e;
        assert items[i] == String([payload.s[i]]);
      }
    }
  }

  /** The reply for a list tool whose body iterates to str elements. */
  lemma ListToolsOnStrElements(call: Call, id: Json, payload: Json)
    requires call.GetChannelMessages? || call.GetGuildChannels?
    requires (payload.String? && |payload.s| > 0) ||
             (payload.Object? && |payload.fields| > 0 && !HasKey(payload.fields, "error"))
    ensures Complete(call, id, Ok(payload)) == InternalReply(NoAttribute("str", "get"))
  {
    StrElementsRaise(call, payload);
    var items := Iterate(payload).value;
    assert items[0] in items;
    if call.GetChannelMessages? {
      assert McpMessage(items[0]) == Raise(NoAttribute("str", "get"));
      ListOutcomeOnFailingLoop(payload, id, McpMessage, "messages");
    } else {
      assert McpChannel(items[0]) == Raise(NoAttribute("str", "get"));
      ListOutcomeOnFailingLoop(payload, id, McpChannel, "channels");
    }
  }

  /** A list tool whose loop fails at the first element raises that
      element's exception. */
  lemma ListOutcomeOnFailingLoop(result: Json, id: Json, project: Json -> PyResult<Json>, member: string)
    requires !(result.Object? && HasKey(result.fields, "error"))
    requires Iterate(result).Value? && |Iterate(result).value| > 0
    requires project(Iterate(result).value[0]).Raise?
    ensures ListOutcome(result, id, project, member) == Raise(project(Iterate(result).value[0]).fault)
  {
    MapAllFirstFails(project, Iterate(result).value);
  }

  // ----------------------------------------------------------------- failures

  /** An upstream error in any tool branch comes back verbatim as the bare
      `{success: false, error}` object, with neither `jsonrpc` nor `id`. */
  lemma UpstreamErrorIsBare(call: Call, id: Json, message: string)
    ensures Complete(call, id, Err(message)) == Reply(200, BareError(String(message)))
    ensures !HasKey(BareError(String(message)).fields, "jsonrpc")
    ensures !HasKey(BareError(String(message)).fields, "id")
  {
    assert Keys(BareError(String(message)).fields) == ["success", "error"];
  }

  /** A known tool with object arguments always reaches the client, and an
      upstream error there makes the whole reply the bare error. */
  lemma InvokeUpstreamErrorIsBare(fields: seq<(string, Json)>, p: seq<(string, Json)>, upstream: Call -> Upstream, message: string)
    requires InvokesWith(fields, p)
    requires Field(p, "method", Null) in InvokeTools
    requires Field(p, "arguments", Object([])).Object?
    ensures Route(Decoded(Object(fields))).Await?
    ensures upstream(Route(Decoded(Object(fields))).call) == Err(message) ==>
      Dispatch(Decoded(Object(fields)), upstream) == Reply(200, BareError(String(message)))
  {
    var r := Route(Decoded(Object(fields)));
    if r.Await? {
      UpstreamErrorIsBare(r.call, r.id, message);
    }
  }

  /** The dispatcher tests upstream failure by an "error" member, so a
      payload with such a member is answered exactly as an upstream error. */
  lemma ErrorMemberReadsAsUpstreamError(call: Call, id: Json, message: string)
    ensures Complete(call, id, Ok(Object([("error", String(message))]))) == Complete(call, id, Err(message))
  {
  }

  /** A body that does not decode is answered with the 500 reply. */
  lemma UndecodableBodyIsInternal(detail: string, upstream: Call -> Upstream)
    ensures Dispatch(Undecodable(detail), upstream) == InternalReply(BadJson(detail))
  {
  }

  /** A body that is not an object has no `get`: 500. */
  lemma NonObjectBodyIsInternal(j: Json, upstream: Call -> Upstream)
    requires !j.Object?
    ensures Dispatch(Decoded(j), upstream) == InternalReply(NoAttribute(TypeName(j), "get"))
  {
  }

  /** `invoke` whose `params` is present but not an object (null, say) is
      answered with the 500 reply, whose id is "unknown" even when the
      request carried one. */
  lemma InvokeWithoutObjectParamsIsInternal(fields: seq<(string, Json)>, upstream: Call -> Upstream)
    requires Field(fields, "method", Null) == String("invoke")
    requires !Field(fields, "params", Object([])).Object?
    ensures Dispatch(Decoded(Object(fields)), upstream) ==
      InternalReply(NoAttribute(TypeName(Field(fields, "params", Object([]))), "get"))
    ensures Dispatch(Decoded(Object(fields)), upstream).body.fields[1] == ("id", UnknownId)
  {
  }

  /** A known tool whose `arguments` is present but not an object is
      answered with the 500 reply before any upstream call. */
  lemma KnownToolWithoutObjectArgumentsIsInternal(fields: seq<(string, Json)>, p: seq<(string, Json)>, upstream: Call -> Upstream)
    requires InvokesWith(fields, p)
    requires Field(p, "method", Null) in InvokeTools
    requires !Field(p, "arguments", Object([])).Object?
    ensures Route(Decoded(Object(fields))) ==
      Done(InternalReply(NoAttribute(TypeName(Field(p, "arguments", Object([]))), "get")))
  {
  }

  /** The dispatcher consults the client at most once, and only about the
      call routing names: replies settled by routing ignore the client, and
      a routed call's reply depends only on that call's answer. */
  lemma DispatchConsultsOnlyRoutedCall(body: Body, u1: Call -> Upstream, u2: Call -> Upstream)
    ensures Route(body).Done? ==> Dispatch(body, u1) == Dispatch(body, u2)
    ensures Route(body).Await? && u1(Route(body).call) == u2(Route(body).call) ==>
      Dispatch(body, u1) == Dispatch(body, u2)
  {
  }
}

=== FILE: pyops.dfy ===
/**
 The few Python operations the handlers apply to decoded JSON values, with
 the exceptions they raise made explicit: `d.get(k, default)`, `k in x`,
 `x[k]` and `for e in x`.
 */
module PyOps {
  import opened Values

  /** The exceptions the handlers can raise while processing a request. */
  datatype Fault =
    | NoAttribute(typeName: string, attr: string)  // AttributeError: x.get on a non-dict
    | NotContainer(typeName: string)               // TypeError: `"error" in x` on a non-container
    | NotIterable(typeName: string)                // TypeError: `for e in x` on a non-iterable
    | StrIndex(typeName: string)                   // TypeError: a list or str indexed by a str
    | NotSubscriptable(typeName: string)           // TypeError: None, bool or int indexed
    | NoLen(typeName: string)                      // TypeError: len() of None, bool or int
    | MissingKey(key: string)                      // KeyError
    | BadJson(detail: string)                      // JSONDecodeError from the request body

  /** A computation that yields a value or raises a Python exception. */
  datatype PyResult<+T> = Value(value: T) | Raise(fault: Fault) {

    predicate IsFailure() {
      Raise?
    }

    function PropagateFailure<U>(): PyResult<U>
      requires Raise?
    {
      Raise(fault)
    }

    function Extract(): T
      requires Value?
    {
      value
    }
  }

  /** The name Python's `type()` gives to a decoded JSON value. */
  function TypeName(j: Json): string {
    match j
    case Null => "NoneType"
    case Bool(_) => "bool"
    case Int(_) => "int"
    case String(_) => "str"
    case Array(_) => "list"
    case Object(_) => "dict"
  }

  /** The members of `x` when it is a dict, which is what calling `x.get(...)`
      needs; on anything else the call raises AttributeError. A handler that
      calls `x.get` several times raises at the first call or never, so one
      check per value stands for all of them. */
  function Dict(x: Json): (r: PyResult<seq<(string, Json)>>)
    ensures r.Value? <==> x.Object?
    ensures r.Raise? ==> r.fault == NoAttribute(TypeName(x), "get")
  {
    if x.Object? then Value(x.fields) else Raise(NoAttribute(TypeName(x), "get"))
  }

  /** True when `p` occurs in `s` as a contiguous piece. */
  predicate IsSubstring(p: string, s: string) {
    exists i :: 0 <= i <= |s| && p <= s[i..]
  }

  /** `item in x` for a string `item`: a dict tests its keys, a list its
      elements, a str its substrings; anything else is not a container. */
  function Contains(x: Json, item: string): (r: PyResult<bool>)
    ensures r.Raise? <==> (x.Null? || x.Bool? || x.Int?)
    ensures r.Raise? ==> r.fault == NotContainer(TypeName(x))
    ensures x.Object? ==> r == Value(HasKey(x.fields, item))
    ensures x.Array? ==> r == Value(String(item) in x.items)
    ensures x.String? ==> r == Value(IsSubstring(item, x.s))
  {
    match x
    case Object(fields) => Value(HasKey(fields, item))
    case Array(items) => Value(String(item) in items)
    case String(s) => Value(IsSubstring(item, s))
    case _ => Raise(NotContainer(TypeName(x)))
  }

  /** `x[key]` for a string `key`. */
  function Subscript(x: Json, key: string): (r: PyResult<Json>)
    ensures r.Value? <==> x.Object? && HasKey(x.fields, key)
    ensures r.Value? ==> Lookup(x.fields, key) == Some(r.value)
  {
    match x
    case Object(fields) =>
      (match Lookup(fields, key)
       case Some(v) => Value(v)
       case None => Raise(MissingKey(key)))
    case Array(_) => Raise(StrIndex(TypeName(x)))
    case String(_) => Raise(StrIndex(TypeName(x)))
    case _ => Raise(NotSubscriptable(TypeName(x)))
  }

  /** The elements `for e in x` visits: a list's elements, a dict's keys,
      a str's one-character strings. */
  function Iterate(x: Json): (r: PyResult<seq<Json>>)
    ensures r.Raise? <==> (x.Null? || x.Bool? || x.Int?)
    ensures r.Raise? ==> r.fault == NotIterable(TypeName(x))
    ensures x.Array? ==> r == Value(x.items)
    ensures x.Object? ==>
      && (forall e :: e in r.value ==> e.String? && HasKey(x.fields, e.s))
      && (forall k :: HasKey(x.fields, k) ==> String(k) in r.value)
      && (forall i, j :: 0 <= i < j < |r.value| ==> r.value[i] != r.value[j])
    ensures x.String? ==>
      |r.value| == |x.s| && forall i :: 0 <= i < |x.s| ==> r.value[i] == String([x.s[i]])
  {
    match x
    case Array(items) => Value(items)
    case Object(fields) =>
      var ks := DistinctKeys(fields);
      var vs := seq(|ks|, i requires 0 <= i < |ks| => String(ks[i]));
      assert forall k :: k in ks ==> String(k) in vs by {
        forall k | k in ks ensures String(k) in vs {
          var i :| 0 <= i < |ks| && ks[i] == k;
          assert vs[i] == String(k);
        }
      }
      Value(vs)
    case String(s) => Value(seq(|s|, i requires 0 <= i < |s| => String([s[i]])))
    case _ => Raise(NotIterable(TypeName(x)))
  }

  /** `str(e)` for the exception, in CPython 3.11's wording. */
  function FaultText(f: Fault): string {
    match f
    case NoAttribute(t, a) => "'" + t + "' object has no attribute '" + a + "'"
    case NotContainer(t) => "argument of type '" + t + "' is not iterable"
    case NotIterable(t) => "'" + t + "' object is not iterable"
    case StrIndex(t) =>
      if t == "list" then "list indices must be integers or slices, not str"
      else "string indices must be integers, not 'str'"
    case NotSubscriptable(t) => "'" + t + "' object is not subscriptable"
    case NoLen(t) => "object of type '" + t + "' has no len()"
    case MissingKey(k) => "'" + k + "'"
    case BadJson(detail) => detail
  }
}

=== FILE: pytext.dfy ===
/**
 Python's `str()` of a decoded JSON value, as an f-string such as
 `f"... {tool_method}"` renders it into an error message.
 */
module PyText {
  import opened Values

  function DigitChar(d: int): char
    requires 0 <= d < 10
  {
    "0123456789"[d]
  }

  predicate IsDecimal(s: string) {
    forall i :: 0 <= i < |s| ==> '0' <= s[i] <= '9'
  }

  /** The decimal digits of `n`, most significant first, without leading zeros. */
  function NatToDecimal(n: nat): (s: string)
    ensures |s| > 0 && IsDecimal(s)
    ensures |s| > 1 ==> s[0] != '0'
    decreases n
  {
    if n < 10 then [DigitChar(n)]
    else NatToDecimal(n / 10) + [DigitChar(n % 10)]
  }

  /** The number a string of decimal digits denotes. */
  function DecimalValue(s: string): nat
    requires IsDecimal(s)
    decreases |s|
  {
    if |s| == 0 then 0
    else DecimalValue(s[..|s| - 1]) * 10 + (s[|s| - 1] as int - '0' as int)
  }

  /** Reading back the digits `str()` prints for a natural number gives that number. */
  lemma {:induction false} DecimalRoundTrip(n: nat)
    ensures DecimalValue(NatToDecimal(n)) == n
    decreases n
  {
    if n >= 10 {
      var s := NatToDecimal(n);
      assert s[..|s| - 1] == NatToDecimal(n / 10);
      DecimalRoundTrip(n / 10);
    }
  }

  /** `str()` of a Python int. */
  function IntToDecimal(n: int): (s: string)
    ensures n >= 0 ==> IsDecimal(s) && DecimalValue(s) == n
    ensures n >= 0 ==> |s| > 0 && (|s| > 1 ==> s[0] != '0')
    ensures n < 0 ==> |s| > 1 && s[0] == '-' && IsDecimal(s[1..]) && DecimalValue(s[1..]) == -n
    ensures n < 0 ==> s[1] != '0'
  {
    if n < 0 then
      DecimalRoundTrip(-n);
      assert ("-" + NatToDecimal(-n))[1..] == NatToDecimal(-n);
      "-" + NatToDecimal(-n)
    else
      DecimalRoundTrip(n);
      NatToDecimal(n)
  }

  function Join(parts: seq<string>, sep: string): string
    decreases |parts|
  {
    if |parts| == 0 then ""
    else if |parts| == 1 then parts[0]
    else parts[0] + sep + Join(parts[1..], sep)
  }

  /** `repr()` of a decoded JSON value: how it appears inside a list or dict. */
  function Repr(j: Json): (r: string)
    ensures j.Null? ==> r == "None"
    ensures j.Bool? ==> r == (if j.b then "True" else "False")
    ensures j.Int? && j.n >= 0 ==> IsDecimal(r) && DecimalValue(r) == j.n
    ensures j.Int? && j.n >= 0 ==> |r| > 0 && (|r| > 1 ==> r[0] != '0')
    ensures j.Int? && j.n < 0 ==> |r| > 1 && r[0] == '-' && r[1] != '0'
    ensures j.String? ==> |r| == |j.s| + 2 && r[0] == '\'' && r[1..|r| - 1] == j.s && r[|r| - 1] == '\''
    ensures j.Array? ==> |r| >= 2 && r[0] == '[' && r[|r| - 1] == ']'
    ensures j.Object? ==> |r| >= 2 && r[0] == '{' && r[|r| - 1] == '}'
    decreases j
  {
    match j
    case Null => "None"
    case Bool(b) => if b then "True" else "False"
    case Int(n) => IntToDecimal(n)
    case String(s) => "'" + s + "'"
    case Array(items) =>
      "[" + Join(seq(|items|, i requires 0 <= i < |items| => Repr(items[i])), ", ") + "]"
    case Object(fields) =>
      "{" + Join(seq(|fields|, i requires 0 <= i < |fields| =>
                   assert fields[i] in fields;
                   "'" + fields[i].0 + "': " + Repr(fields[i].1)), ", ") + "}"
  }

  /** `str()` of a decoded JSON value: a string is printed as itself, every
      other value as its `repr()`. */
  function Show(j: Json): (s: string)
    ensures j.String? ==> s == j.s
    ensures j.Null? ==> s == "None"
  {
    if j.String? then j.s else Repr(j)
  }
}

=== FILE: rest.dfy ===
/**
 The REST handlers `/get-messages` and `/get-channels` in main.py. They make
 the same upstream calls as the `/mcp` tools and project the same payloads,
 but keep one more member per item, nest the list under `data`, and turn an
 exception into a `{success: false, error}` answer instead of HTTP 500.

 The request bodies have already been validated by the request models, so
 the ids are strings; a `limit` left out of the request has become 10.
 */
module Rest {
  import opened Values
  import opened PyOps
  import opened Discord
  import opened Simplify
  import Mcp

  /** The validated `/get-messages` request. */
  datatype MessagesRequest = MessagesRequest(channelId: string, limit: Option<int>)

  /** The upstream call `/get-messages` makes: the request's channel, and
      its limit as an int, or None when the request set it to null. */
  function MessagesCall(req: MessagesRequest): (c: Call)
    ensures c.GetChannelMessages? && c.channelId == String(req.channelId)
    ensures c.limit.Int? <==> req.limit.Some?
    ensures req.limit.Some? ==> c.limit.n == req.limit.value
    ensures req.limit.None? ==> c.limit == Null
  {
    GetChannelMessages(String(req.channelId), match req.limit case Some(n) => Int(n) case None => Null)
  }

  /** The answer of a REST list handler for the client result `result`. */
  function ListAnswer(result: Json, project: Json -> PyResult<Json>, member: string): (r: Json)
    ensures IsBareError(r) || IsListAnswer(r, member)
    ensures SimplifyPayload(result, project).Raise? ==> IsBareError(r) && r.fields[1].1.String?
  {
    match SimplifyPayload(result, project)
    case Raise(f) => BareError(String(FaultText(f)))
    case Value(UpstreamFailed(e)) => BareError(e)
    case Value(Listed(items)) => Object([("success", Bool(true)), ("data", Object([(member, Array(items))]))])
  }

  /** True when `j` is `{success: true, data: {member: [...]}}`. */
  predicate IsListAnswer(j: Json, member: string) {
    && j.Object? && Keys(j.fields) == ["success", "data"] && j.fields[0].1 == Bool(true)
    && j.fields[1].1.Object? && Keys(j.fields[1].1.fields) == [member]
    && j.fields[1].1.fields[0].1.Array?
  }

  /** `/get-messages`: never an exception, always a bare error or the list. */
  function GetMessages(req: MessagesRequest, upstream: Call -> Upstream): (r: Json)
    ensures IsBareError(r) || IsListAnswer(r, "messages")
  {
    ListAnswer(Returned(MessagesCall(req), upstream(MessagesCall(req))), RestMessage, "messages")
  }

  /** `/get-channels`: never an exception, always a bare error or the list. */
  function GetChannels(guildId: string, upstream: Call -> Upstream): (r: Json)
    ensures IsBareError(r) || IsListAnswer(r, "channels")
  {
    ListAnswer(Returned(GetGuildChannels(String(guildId)), upstream(GetGuildChannels(String(guildId)))), RestChannel, "channels")
  }

  /** On an upstream list of messages the answer lists their REST
      projections in order, under `data.messages`. */
  lemma GetMessagesSimplifies(req: MessagesRequest, upstream: Call -> Upstream, xs: seq<Json>, ms: seq<Json>)
    requires upstream(MessagesCall(req)) == Ok(Array(xs))
    requires |ms| == |xs|
    requires forall i :: 0 <= i < |xs| ==> RestMessage(xs[i]) == Value(ms[i])
    ensures GetMessages(req, upstream) == Object([("success", Bool(true)), ("data", Object([("messages", Array(ms))]))])
    ensures forall i :: 0 <= i < |ms| ==> IsRestMessage(ms[i])
  {
    var r := SimplifyPayload(Array(xs), RestMessage);
    assert r.Value? && r.value.Listed?;
    assert r.value.items == ms;
  }

  /** On an upstream list of channels the answer lists their REST
      projections in order, under `data.channels`. */
  lemma GetChannelsSimplifies(guildId: string, upstream: Call -> Upstream, xs: seq<Json>, cs: seq<Json>)
    requires upstream(GetGuildChannels(String(guildId))) == Ok(Array(xs))
    requires |cs| == |xs|
    requires forall i :: 0 <= i < |xs| ==> RestChannel(xs[i]) == Value(cs[i])
    ensures GetChannels(guildId, upstream) == Object([("success", Bool(true)), ("data", Object([("channels", Array(cs))]))])
    ensures forall i :: 0 <= i < |cs| ==> IsRestChannel(cs[i])
  {
    var r := SimplifyPayload(Array(xs), RestChannel);
    assert r.Value? && r.value.Listed?;
    assert r.value.items == cs;
  }

  /** An upstream error of `/get-messages` comes back verbatim as
      `{success: false, error}`. */
  lemma GetMessagesUpstreamErrorIsBare(req: MessagesRequest, upstream: Call -> Upstream, message: string)
    requires upstream(MessagesCall(req)) == Err(message)
    ensures GetMessages(req, upstream) == BareError(String(message))
  {
  }

  /** An upstream error of `/get-channels` comes back verbatim as
      `{success: false, error}`. */
  lemma GetChannelsUpstreamErrorIsBare(guildId: string, upstream: Call -> Upstream, message: string)
    requires upstream(GetGuildChannels(String(guildId))) == Err(message)
    ensures GetChannels(guildId, upstream) == BareError(String(message))
  {
  }

  /** Where the `/mcp` tool answers 500, the REST handler answers
      `{success: false, error: str(e)}` for the same exception `e`: a
      malformed message is one such case. */
  lemma MalformedMessageIsBareError(req: MessagesRequest, upstream: Call -> Upstream, xs: seq<Json>, i: int, id: Json)
    requires upstream(MessagesCall(req)) == Ok(Array(xs))
    requires 0 <= i < |xs| && !IsProjectable(xs[i])
    ensures MapAll(RestMessage, xs).Raise? && MapAll(McpMessage, xs) == MapAll(RestMessage, xs)
    ensures GetMessages(req, upstream) == BareError(String(FaultText(MapAll(RestMessage, xs).fault)))
    ensures Mcp.Complete(MessagesCall(req), id, Ok(Array(xs))) == Mcp.InternalReply(MapAll(RestMessage, xs).fault)
    ensures IsBareError(GetMessages(req, upstream))
    ensures GetMessages(req, upstream).fields[1].1.String?
  {
    assert RestMessage(xs[i]).Raise?;
    MessageFailuresAgree(xs);
    RestListFailure(req, upstream, xs, i);
    McpListFailure(MessagesCall(req), id, xs, i);
  }

  /** A failing REST message list is answered with the text of its exception. */
  lemma RestListFailure(req: MessagesRequest, upstream: Call -> Upstream, xs: seq<Json>, i: int)
    requires upstream(MessagesCall(req)) == Ok(Array(xs))
    requires 0 <= i < |xs| && !IsProjectable(xs[i])
    ensures MapAll(RestMessage, xs).Raise?
    ensures GetMessages(req, upstream) == BareError(String(FaultText(MapAll(RestMessage, xs).fault)))
  {
    assert RestMessage(xs[i]).Raise?;
    assert Returned(MessagesCall(req), Ok(Array(xs))) == Array(xs);
    assert SimplifyPayload(Array(xs), RestMessage) == Raise(MapAll(RestMessage, xs).fault);
  }

  /** A failing `/mcp` message list is answered with the 500 reply for its exception. */
  lemma McpListFailure(call: Call, id: Json, xs: seq<Json>, i: int)
    requires call.GetChannelMessages?
    requires 0 <= i < |xs| && !IsProjectable(xs[i])
    ensures MapAll(McpMessage, xs).Raise?
    ensures Mcp.Complete(call, id, Ok(Array(xs))) == Mcp.InternalReply(MapAll(McpMessage, xs).fault)
  {
    assert McpMessage(xs[i]).Raise?;
    assert Returned(call, Ok(Array(xs))) == Array(xs);
    assert SimplifyPayload(Array(xs), McpMessage) == Raise(MapAll(McpMessage, xs).fault);
    assert Mcp.ListOutcome(Array(xs), id, McpMessage, "messages") == Raise(MapAll(McpMessage, xs).fault);
  }

  /** When the REST message list fails, the `/mcp` one fails with the same
      exception. */
  lemma {:induction false} MessageFailuresAgree(xs: seq<Json>)
    ensures MapAll(RestMessage, xs).Raise? ==> MapAll(McpMessage, xs) == MapAll(RestMessage, xs)
    decreases |xs|
  {
    if |xs| > 0 {
      RestMessageAddsAuthorId(xs[0]);
      MessageFailuresAgree(xs[1..]);
    }
  }

  /** The REST and `/mcp` message lists succeed or fail together on the same
      client result; item by item, the REST one adds the author's id. */
  lemma {:induction false} MessageListsAgree(xs: seq<Json>)
    ensures MapAll(RestMessage, xs).Value? <==> MapAll(McpMessage, xs).Value?
    ensures MapAll(RestMessage, xs).Value? ==>
      && |MapAll(RestMessage, xs).value| == |MapAll(McpMessage, xs).value|
      && forall i :: 0 <= i < |xs| ==>
           MapAll(RestMessage, xs).value[i].fields[2].1.fields ==
             [("id", Field(Author(xs[i]).fields, "id", Null))] + MapAll(McpMessage, xs).value[i].fields[2].1.fields
  {
    forall i | 0 <= i < |xs| ensures RestMessage(xs[i]).Value? <==> McpMessage(xs[i]).Value? {
      RestMessageAddsAuthorId(xs[i]);
    }
    if MapAll(RestMessage, xs).Value? {
      forall i | 0 <= i < |xs|
        ensures MapAll(RestMessage, xs).value[i].fields[2].1.fields ==
          [("id", Field(Author(xs[i]).fields, "id", Null))] + MapAll(McpMessage, xs).value[i].fields[2].1.fields
      {
        RestMessageAddsAuthorId(xs[i]);
        assert RestMessage(xs[i]) == Value(MapAll(RestMessage, xs).value[i]);
        assert McpMessage(xs[i]) == Value(MapAll(McpMessage, xs).value[i]);
      }
    }
  }

  /** The REST and `/mcp` channel lists succeed or fail together on the same
      client result; item by item, the REST one appends `parent_id`. */
  lemma {:induction false} ChannelListsAgree(xs: seq<Json>)
    ensures MapAll(RestChannel, xs).Value? <==> MapAll(McpChannel, xs).Value?
    ensures MapAll(RestChannel, xs).Value? ==>
      && |MapAll(RestChannel, xs).value| == |MapAll(McpChannel, xs).value|
      && forall i :: 0 <= i < |xs| ==>
           MapAll(RestChannel, xs).value[i].fields ==
             MapAll(McpChannel, xs).value[i].fields + [("parent_id", Field(xs[i].fields, "parent_id", Null))]
  {
    if MapAll(RestChannel, xs).Value? {
      forall i | 0 <= i < |xs|
        ensures MapAll(RestChannel, xs).value[i].fields ==
          MapAll(McpChannel, xs).value[i].fields + [("parent_id", Field(xs[i].fields, "parent_id", Null))]
      {
        RestChannelAddsParentId(xs[i]);
        assert RestChannel(xs[i]) == Value(MapAll(RestChannel, xs).value[i]);
        assert McpChannel(xs[i]) == Value(MapAll(McpChannel, xs).value[i]);
      }
    }
  }
}

=== FILE: simplify.dfy ===
/**
 The projections the handlers apply to upstream payloads: each message or
 channel object is cut down to a fixed set of members, missing members
 becoming null. The `/mcp` dispatcher and the REST handlers each have their
 own copy; they differ in one member each (the author's `id`, the channel's
 `parent_id`).
 */
module Simplify {
  import opened Values
  import opened PyOps

  /** Python's loop `for x in xs: out.append(f(x))`: every element in order,
      stopping at the first exception. */
  function MapAll(f: Json -> PyResult<Json>, xs: seq<Json>): (r: PyResult<seq<Json>>)
    ensures r.Value? <==> forall i :: 0 <= i < |xs| ==> f(xs[i]).Value?
    ensures r.Value? ==> |r.value| == |xs| && forall i :: 0 <= i < |xs| ==> f(xs[i]) == Value(r.value[i])
    ensures r.Raise? ==>
      exists i :: 0 <= i < |xs| && f(xs[i]) == Raise(r.fault) && forall j :: 0 <= j < i ==> f(xs[j]).Value?
    decreases |xs|
  {
    if |xs| == 0 then Value([])
    else
      var y :- f(xs[0]);
      var ys :- MapAll(f, xs[1..]);
      assert forall i :: 1 <= i < |xs| ==> xs[1..][i - 1] == xs[i];
      Value([y] + ys)
  }

  /** When the first element fails, the loop raises that element's exception. */
  lemma MapAllFirstFails(f: Json -> PyResult<Json>, xs: seq<Json>)
    requires |xs| > 0 && f(xs[0]).Raise?
    ensures MapAll(f, xs) == Raise(f(xs[0]).fault)
  {
  }

  /** Applying a projection to its own outputs changes nothing, so mapping it
      over a list it produced gives that list back. */
  lemma MapAllIdempotent(f: Json -> PyResult<Json>, xs: seq<Json>, ys: seq<Json>)
    requires forall x :: f(x).Value? ==> f(f(x).value) == f(x)
    requires MapAll(f, xs) == Value(ys)
    ensures MapAll(f, ys) == Value(ys)
  {
    forall i | 0 <= i < |ys|
      ensures f(ys[i]) == Value(ys[i])
    {
      assert f(xs[i]) == Value(ys[i]);
    }
    var zs := MapAll(f, ys).value;
    assert zs == ys by {
      forall i | 0 <= i < |ys| ensures zs[i] == ys[i] {
        assert f(ys[i]) == Value(zs[i]);
      }
    }
  }

  /** The `{success: false, error}` object both surfaces answer a failure with. */
  function BareError(e: Json): Json {
    Object([("success", Bool(false)), ("error", e)])
  }

  /** True when `j` is the bare `{success: false, error}` object. */
  predicate IsBareError(j: Json) {
    j.Object? && Keys(j.fields) == ["success", "error"] && j.fields[0].1 == Bool(false)
  }

  /** What the list handlers make of a client result: the upstream's error,
      or the projected items. */
  datatype Listing = UpstreamFailed(error: Json) | Listed(items: seq<Json>)

  /** The list handling `get_messages` and `get_channels` share on both
      surfaces: a dict with an "error" key is the upstream's failure;
      anything else is iterated and every element projected. */
  function SimplifyPayload(result: Json, project: Json -> PyResult<Json>): (r: PyResult<Listing>)
    ensures result.Object? && HasKey(result.fields, "error") ==>
      r.Value? && r.value.UpstreamFailed? && Lookup(result.fields, "error") == Some(r.value.error)
    ensures result.Array? ==> (r.Value? <==> forall i :: 0 <= i < |result.items| ==> project(result.items[i]).Value?)
    ensures result.Array? && r.Value? ==>
      r.value.Listed? && |r.value.items| == |result.items| &&
      forall i :: 0 <= i < |result.items| ==> project(result.items[i]) == Value(r.value.items[i])
    ensures result.String? ==>
      (r.Value? <==> forall i :: 0 <= i < |result.s| ==> project(String([result.s[i]])).Value?)
    ensures result.Object? && !HasKey(result.fields, "error") ==>
      (r.Value? <==> forall k :: HasKey(result.fields, k) ==> project(String(k)).Value?)
    ensures result.Null? || result.Bool? || result.Int? ==> r == Raise(NotIterable(TypeName(result)))
  {
    if result.Object? && HasKey(result.fields, "error") then
      Value(UpstreamFailed(Lookup(result.fields, "error").value))
    else
      var items :- Iterate(result);
      var simplified :- MapAll(project, items);
      Value(Listed(simplified))
  }

  /** The object `out` has exactly the members `names`, in that order, each
      holding the value `src` has under that name, or null when it has none. */
  predicate Projects(out: Json, src: seq<(string, Json)>, names: seq<string>) {
    && out.Object?
    && Keys(out.fields) == names
    && forall i :: 0 <= i < |names| ==> out.fields[i].1 == Field(src, names[i], Null)
  }

  /** `msg.get("author", {})` */
  function Author(msg: Json): Json
    requires msg.Object?
  {
    Field(msg.fields, "author", Object([]))
  }

  /** The only message shape the processing loops accept: an object whose
      `author`, when present, is itself an object. */
  predicate IsProjectable(msg: Json) {
    msg.Object? && Author(msg).Object?
  }

  // ---------------------------------------------------------------- messages

  /** A message as the `/mcp` `get_messages` tool returns it. */
  predicate IsMcpMessage(j: Json) {
    && j.Object?
    && Keys(j.fields) == ["id", "content", "author", "timestamp"]
    && j.fields[2].1.Object?
    && Keys(j.fields[2].1.fields) == ["username", "bot"]
  }

  /** A message as the REST `/get-messages` handler returns it. */
  predicate IsRestMessage(j: Json) {
    && j.Object?
    && Keys(j.fields) == ["id", "content", "author", "timestamp"]
    && j.fields[2].1.Object?
    && Keys(j.fields[2].1.fields) == ["id", "username", "bot"]
  }

  /** The message members a simplified message copies from `msg`, missing ones as null. */
  predicate CopiesMessageFields(out: Json, msg: Json)
    requires out.Object? && |out.fields| == 4 && msg.Object?
  {
    && out.fields[0].1 == Field(msg.fields, "id", Null)
    && out.fields[1].1 == Field(msg.fields, "content", Null)
    && out.fields[3].1 == Field(msg.fields, "timestamp", Null)
  }

  /** The `/mcp` message projection: id, content, author reduced to username
      and bot (bot defaulting to false), timestamp. */
  function McpMessage(msg: Json): (r: PyResult<Json>)
    ensures r.Value? <==> IsProjectable(msg)
    ensures r.Raise? ==> r.fault.NoAttribute? && r.fault.attr == "get"
    ensures r.Value? ==> IsMcpMessage(r.value) && CopiesMessageFields(r.value, msg)
    ensures r.Value? ==> r.value.fields[2].1.fields[0].1 == Field(Author(msg).fields, "username", Null)
    ensures r.Value? ==> r.value.fields[2].1.fields[1].1 == Field(Author(msg).fields, "bot", Bool(false))
  {
    var fields :- Dict(msg);
    var author :- Dict(Field(fields, "author", Object([])));
    Value(Object([("id", Field(fields, "id", Null)),
                  ("content", Field(fields, "content", Null)),
                  ("author", Object([("username", Field(author, "username", Null)),
                                     ("bot", Field(author, "bot", Bool(false)))])),
                  ("timestamp", Field(fields, "timestamp", Null))]))
  }

  /** The REST message projection: as the `/mcp` one, with the author's id
      kept in front of username. */
  function RestMessage(msg: Json): (r: PyResult<Json>)
    ensures r.Value? <==> IsProjectable(msg)
    ensures r.Raise? ==> r.fault.NoAttribute? && r.fault.attr == "get"
    ensures r.Value? ==> IsRestMessage(r.value) && CopiesMessageFields(r.value, msg)
    ensures r.Value? ==> r.value.fields[2].1.fields[0].1 == Field(Author(msg).fields, "id", Null)
    ensures r.Value? ==> r.value.fields[2].1.fields[1].1 == Field(Author(msg).fields, "username", Null)
    ensures r.Value? ==> r.value.fields[2].1.fields[2].1 == Field(Author(msg).fields, "bot", Bool(false))
  {
    var fields :- Dict(msg);
    var author :- Dict(Field(fields, "author", Object([])));
    Value(Object([("id", Field(fields, "id", Null)),
                  ("content", Field(fields, "content", Null)),
                  ("author", Object([("id", Field(author, "id", Null)),
                                     ("username", Field(author, "username", Null)),
                                     ("bot", Field(author, "bot", Bool(false)))])),
                  ("timestamp", Field(fields, "timestamp", Null))]))
  }

  /** Both message projections accept the same messages and raise the same
      exception; on success the REST one differs only by the author's id. */
  lemma RestMessageAddsAuthorId(msg: Json)
    ensures RestMessage(msg).Raise? <==> McpMessage(msg).Raise?
    ensures RestMessage(msg).Raise? ==> RestMessage(msg) == McpMessage(msg)
    ensures RestMessage(msg).Value? ==>
      var rest := RestMessage(msg).value;
      var mcp := McpMessage(msg).value;
      && rest.fields[0] == mcp.fields[0]
      && rest.fields[1] == mcp.fields[1]
      && rest.fields[3] == mcp.fields[3]
      && rest.fields[2].1.fields == [("id", Field(Author(msg).fields, "id", Null))] + mcp.fields[2].1.fields
  {
  }

  // ---------------------------------------------------------------- channels

  /** A channel as the `/mcp` `get_channels` tool returns it. */
  predicate IsMcpChannel(j: Json) {
    j.Object? && Keys(j.fields) == ["id", "name", "type"]
  }

  /** A channel as the REST `/get-channels` handler returns it. */
  predicate IsRestChannel(j: Json) {
    j.Object? && Keys(j.fields) == ["id", "name", "type", "parent_id"]
  }

  /** The `/mcp` channel projection: id, name, type. */
  function McpChannel(ch: Json): (r: PyResult<Json>)
    ensures r.Value? <==> ch.Object?
    ensures r.Raise? ==> r.fault == NoAttribute(TypeName(ch), "get")
    ensures r.Value? ==> Projects(r.value, ch.fields, ["id", "name", "type"])
  {
    var fields :- Dict(ch);
    Value(Object([("id", Field(fields, "id", Null)),
                  ("name", Field(fields, "name", Null)),
                  ("type", Field(fields, "type", Null))]))
  }

  /** The REST channel projection: id, name, type, parent_id. */
  function RestChannel(ch: Json): (r: PyResult<Json>)
    ensures r.Value? <==> ch.Object?
    ensures r.Raise? ==> r.fault == NoAttribute(TypeName(ch), "get")
    ensures r.Value? ==> Projects(r.value, ch.fields, ["id", "name", "type", "parent_id"])
  {
    var fields :- Dict(ch);
    var out := Object([("id", Field(fields, "id", Null)),
                       ("name", Field(fields, "name", Null)),
                       ("type", Field(fields, "type", Null)),
                       ("parent_id", Field(fields, "parent_id", Null))]);
    assert Keys(out.fields) == ["id", "name", "type", "parent_id"];
    Value(out)
  }

  /** The REST channel is the `/mcp` channel with `parent_id` appended. */
  lemma RestChannelAddsParentId(ch: Json)
    ensures RestChannel(ch).Raise? ==> RestChannel(ch) == McpChannel(ch)
    ensures RestChannel(ch).Value? ==>
      RestChannel(ch).value.fields == McpChannel(ch).value.fields + [("parent_id", Field(ch.fields, "parent_id", Null))]
  {
  }

  // ------------------------------------------------------------ fixed points

  /** Four fields named as a simplified message is. */
  lemma MessageFieldsLookup(fields: seq<(string, Json)>)
    requires Keys(fields) == ["id", "content", "author", "timestamp"]
    ensures Lookup(fields, "id") == Some(fields[0].1)
    ensures Lookup(fields, "content") == Some(fields[1].1)
    ensures Lookup(fields, "author") == Some(fields[2].1)
    ensures Lookup(fields, "timestamp") == Some(fields[3].1)
  {
    assert forall i :: 0 <= i < 4 ==> fields[i].0 == Keys(fields)[i];
    LookupDistinct(fields, 0);
    LookupDistinct(fields, 1);
    LookupDistinct(fields, 2);
    LookupDistinct(fields, 3);
  }

  /** A message is left unchanged by the `/mcp` projection exactly when it
      already has the `/mcp` shape. */
  lemma McpMessageFixedPoints(j: Json)
    ensures McpMessage(j) == Value(j) <==> IsMcpMessage(j)
  {
    if IsMcpMessage(j) {
      var f := j.fields;
      MessageFieldsLookup(f);
      var a := f[2].1.fields;
      assert a[0].0 == "username" && a[1].0 == "bot" by { assert Keys(a)[0] == a[0].0 && Keys(a)[1] == a[1].0; }
      LookupDistinct(a, 0);
      LookupDistinct(a, 1);
      assert a == [a[0], a[1]];
      assert f[0].0 == Keys(f)[0] && f[1].0 == Keys(f)[1] && f[2].0 == Keys(f)[2] && f[3].0 == Keys(f)[3];
      assert f == [f[0], f[1], f[2], f[3]];
    }
  }

  /** Three fields named as a REST message author is, read back by name. */
  lemma RestAuthorLookup(a: seq<(string, Json)>)
    requires Keys(a) == ["id", "username", "bot"]
    ensures a == [("id", Field(a, "id", Null)), ("username", Field(a, "username", Null)),
                  ("bot", Field(a, "bot", Bool(false)))]
  {
    assert a[0].0 == "id" && a[1].0 == "username" && a[2].0 == "bot" by {
      assert Keys(a)[0] == a[0].0 && Keys(a)[1] == a[1].0 && Keys(a)[2] == a[2].0;
    }
    LookupDistinct(a, 0);
    LookupDistinct(a, 1);
    LookupDistinct(a, 2);
  }

  /** A message is left unchanged by the REST projection exactly when it
      already has the REST shape. */
  lemma RestMessageFixedPoints(j: Json)
    ensures RestMessage(j) == Value(j) <==> IsRestMessage(j)
  {
    if IsRestMessage(j) {
      var f := j.fields;
      MessageFieldsLookup(f);
      var a := f[2].1.fields;
      RestAuthorLookup(a);
      assert f[0].0 == Keys(f)[0] && f[1].0 == Keys(f)[1] && f[2].0 == Keys(f)[2] && f[3].0 == Keys(f)[3];
      assert f == [f[0], f[1], f[2], f[3]];
      assert RestMessage(j).value == j;
    }
  }

  /** A channel is left unchanged by the `/mcp` projection exactly when it
      already has the `/mcp` shape. */
  lemma McpChannelFixedPoints(j: Json)
    ensures McpChannel(j) == Value(j) <==> IsMcpChannel(j)
  {
    if IsMcpChannel(j) {
      var f := j.fields;
      assert f[0].0 == "id" && f[1].0 == "name" && f[2].0 == "type" by {
        assert Keys(f)[0] == f[0].0 && Keys(f)[1] == f[1].0 && Keys(f)[2] == f[2].0;
      }
      LookupDistinct(f, 0);
      LookupDistinct(f, 1);
      LookupDistinct(f, 2);
      assert f == [f[0], f[1], f[2]];
    }
  }

  /** A channel is left unchanged by the REST projection exactly when it
      already has the REST shape. */
  lemma RestChannelFixedPoints(j: Json)
    ensures RestChannel(j) == Value(j) <==> IsRestChannel(j)
  {
    if IsRestChannel(j) {
      var f := j.fields;
      assert f[0].0 == "id" && f[1].0 == "name" && f[2].0 == "type" && f[3].0 == "parent_id" by {
        assert Keys(f)[0] == f[0].0 && Keys(f)[1] == f[1].0 && Keys(f)[2] == f[2].0 && Keys(f)[3] == f[3].0;
      }
      LookupDistinct(f, 0);
      LookupDistinct(f, 1);
      LookupDistinct(f, 2);
      LookupDistinct(f, 3);
      assert f == [f[0], f[1], f[2], f[3]];
    }
  }

  /** Simplifying an already simplified message list gives it back unchanged. */
  lemma McpMessagesIdempotent(xs: seq<Json>, ys: seq<Json>)
    requires MapAll(McpMessage, xs) == Value(ys)
    ensures MapAll(McpMessage, ys) == Value(ys)
  {
    forall x | McpMessage(x).Value? ensures McpMessage(McpMessage(x).value) == McpMessage(x) {
      McpMessageFixedPoints(McpMessage(x).value);
    }
    MapAllIdempotent(McpMessage, xs, ys);
  }

  /** Simplifying an already simplified channel list gives it back unchanged. */
  lemma McpChannelsIdempotent(xs: seq<Json>, ys: seq<Json>)
    requires MapAll(McpChannel, xs) == Value(ys)
    ensures MapAll(McpChannel, ys) == Value(ys)
  {
    forall x | McpChannel(x).Value? ensures McpChannel(McpChannel(x).value) == McpChannel(x) {
      McpChannelFixedPoints(McpChannel(x).value);
    }
    MapAllIdempotent(McpChannel, xs, ys);
  }

  /** The REST message list is idempotent in the same way. */
  lemma RestMessagesIdempotent(xs: seq<Json>, ys: seq<Json>)
    requires MapAll(RestMessage, xs) == Value(ys)
    ensures MapAll(RestMessage, ys) == Value(ys)
  {
    forall x | RestMessage(x).Value? ensures RestMessage(RestMessage(x).value) == RestMessage(x) {
      RestMessageFixedPoints(RestMessage(x).value);
    }
    MapAllIdempotent(RestMessage, xs, ys);
  }

  /** The REST channel list is idempotent in the same way. */
  lemma RestChannelsIdempotent(xs: seq<Json>, ys: seq<Json>)
    requires MapAll(RestChannel, xs) == Value(ys)
    ensures MapAll(RestChannel, ys) == Value(ys)
  {
    forall x | RestChannel(x).Value? ensures RestChannel(RestChannel(x).value) == RestChannel(x) {
      RestChannelFixedPoints(RestChannel(x).value);
    }
    MapAllIdempotent(RestChannel, xs, ys);
  }
}

=== FILE: values.dfy ===
/**
 JSON values as Python's `json` module decodes them, and the lookups the
 dispatcher performs on decoded objects.

 Objects keep their members in order, as a Python `dict` built by
 `json.loads` does; when a key occurs more than once the last occurrence
 wins, which is also what `json.loads` does with duplicate keys.
 */
module Values {

  datatype Option<+T> = None | Some(value: T) {

    /** The value held in Some, or `default` when None. */
    function GetOr(default: T): T {
      match this
      case Some(v) => v
      case None => default
    }
  }

  /** A decoded JSON document. Numbers are integers only. */
  datatype Json =
    | Null
    | Bool(b: bool)
    | Int(n: int)
    | String(s: string)
    | Array(items: seq<Json>)
    | Object(fields: seq<(string, Json)>)

  /** True when some member of `fields` is named `key`. */
  predicate HasKey(fields: seq<(string, Json)>, key: string) {
    exists i :: 0 <= i < |fields| && fields[i].0 == key
  }

  /** The value of the last member named `key`, if there is one. */
  function Lookup(fields: seq<(string, Json)>, key: string): (r: Option<Json>)
    ensures r.None? <==> !HasKey(fields, key)
    ensures r.Some? ==>
      exists i :: 0 <= i < |fields| && fields[i] == (key, r.value) &&
        forall j :: i < j < |fields| ==> fields[j].0 != key
    decreases |fields|
  {
    if |fields| == 0 then None
    else if fields[|fields| - 1].0 == key then Some(fields[|fields| - 1].1)
    else
      var front := fields[..|fields| - 1];
      assert forall i :: 0 <= i < |front| ==> front[i] == fields[i];
      assert HasKey(fields, key) ==> HasKey(front, key) by {
        if HasKey(fields, key) {
          var i :| 0 <= i < |fields| && fields[i].0 == key;
          assert front[i].0 == key;
        }
      }
      Lookup(front, key)
  }

  /** Python's `d.get(key, default)` on a dict with members `fields`. */
  function Field(fields: seq<(string, Json)>, key: string, default: Json): (r: Json)
    ensures !HasKey(fields, key) ==> r == default
    ensures HasKey(fields, key) ==>
      exists i :: 0 <= i < |fields| && fields[i] == (key, r) &&
        forall j :: i < j < |fields| ==> fields[j].0 != key
  {
    Lookup(fields, key).GetOr(default)
  }

  /** The member names of an object, in order. */
  function Keys(fields: seq<(string, Json)>): (ks: seq<string>)
    ensures |ks| == |fields|
    ensures forall i :: 0 <= i < |fields| ==> ks[i] == fields[i].0
  {
    seq(|fields|, i requires 0 <= i < |fields| => fields[i].0)
  }

  /** True when every occurrence of `b` in `fields` comes after some
      occurrence of `a`: the first `a` precedes the first `b`. */
  predicate FirstBefore(fields: seq<(string, Json)>, a: string, b: string) {
    forall p :: 0 <= p < |fields| && fields[p].0 == b ==> exists q :: 0 <= q < p && fields[q].0 == a
  }

  /** The member names of an object with repetitions removed, each at its
      first occurrence: the order in which Python iterates over the dict. */
  function DistinctKeys(fields: seq<(string, Json)>): (ks: seq<string>)
    ensures forall k :: k in ks <==> HasKey(fields, k)
    ensures forall i, j :: 0 <= i < j < |ks| ==> ks[i] != ks[j]
    ensures forall i, j :: 0 <= i < j < |ks| ==> FirstBefore(fields, ks[i], ks[j])
    decreases |fields|
  {
    if |fields| == 0 then []
    else
      var front := fields[..|fields| - 1];
      var fks := DistinctKeys(front);
      var last := fields[|fields| - 1].0;
      assert forall k :: HasKey(fields, k) <==> HasKey(front, k) || k == last by {
        forall k ensures HasKey(fields, k) <==> HasKey(front, k) || k == last {
          if HasKey(front, k) {
            var i :| 0 <= i < |front| && front[i].0 == k;
            assert fields[i].0 == k;
          }
          if HasKey(fields, k) && k != last {
            var i :| 0 <= i < |fields| && fields[i].0 == k;
            assert front[i].0 == k;
          }
        }
      }
      var ks := if last in fks then fks else fks + [last];
      assert forall i, j :: 0 <= i < j < |ks| ==> FirstBefore(fields, ks[i], ks[j]) by {
        forall i, j | 0 <= i < j < |ks| ensures FirstBefore(fields, ks[i], ks[j]) {
          FirstBeforeExtend(fields, fks, ks, i, j);
        }
      }
      ks
  }

  /** The inductive step of `DistinctKeys`'s ordering clause. */
  lemma FirstBeforeExtend(fields: seq<(string, Json)>, fks: seq<string>, ks: seq<string>, i: int, j: int)
    requires |fields| > 0
    requires forall k :: k in fks <==> HasKey(fields[..|fields| - 1], k)
    requires forall a, b :: 0 <= a < b < |fks| ==> FirstBefore(fields[..|fields| - 1], fks[a], fks[b])
    requires ks == if fields[|fields| - 1].0 in fks then fks else fks + [fields[|fields| - 1].0]
    requires 0 <= i < j < |ks|
    ensures FirstBefore(fields, ks[i], ks[j])
  {
    var front := fields[..|fields| - 1];
    assert ks[i] in fks;
    var q0 :| 0 <= q0 < |front| && front[q0].0 == ks[i];
    forall p | 0 <= p < |fields| && fields[p].0 == ks[j]
      ensures exists q :: 0 <= q < p && fields[q].0 == ks[i]
    {
      if p < |front| {
        assert j < |fks|;
        assert front[p].0 == ks[j];
        var q :| 0 <= q < p && front[q].0 == ks[i];
        assert fields[q].0 == ks[i];
      } else {
        assert fields[q0].0 == ks[i];
      }
    }
  }

  /** Without repeated names, iterating the dict visits the names as they
      are written. */
  lemma {:induction false} DistinctKeysOfDistinct(fields: seq<(string, Json)>)
    requires forall a, b :: 0 <= a < b < |fields| ==> fields[a].0 != fields[b].0
    ensures DistinctKeys(fields) == Keys(fields)
    decreases |fields|
  {
    if |fields| > 0 {
      var front := fields[..|fields| - 1];
      var last := fields[|fields| - 1].0;
      DistinctKeysOfDistinct(front);
      assert !HasKey(front, last);
      assert Keys(fields) == Keys(front) + [last];
    }
  }

  /** In an object whose member names do not repeat, the member at position
      `i` is the one a lookup of its name finds. */
  lemma LookupDistinct(fields: seq<(string, Json)>, i: int)
    requires 0 <= i < |fields|
    requires forall a, b :: 0 <= a < b < |fields| ==> fields[a].0 != fields[b].0
    ensures Lookup(fields, fields[i].0) == Some(fields[i].1)
  {
    var r := Lookup(fields, fields[i].0);
    assert HasKey(fields, fields[i].0);
    var k :| 0 <= k < |fields| && fields[k] == (fields[i].0, r.value) &&
      forall j :: k < j < |fields| ==> fields[j].0 != fields[i].0;
    assert k == i;
  }
}
